=== FILE: README.md ===
# videy-bulk-downloader, modelled in Dafny

`app.js` reads `urls.txt`. It picks every Videy page URL
(`http(s)://videy.co/v?id=<id>`) out of the file and asks whether to add to
the `downloads` folder or truncate it first. It then fetches every video from
`https://cdn.videy.co/<id>.mp4` concurrently and prints a numbered summary.

The model has four modules:

- `Text` (text.dfy) holds the character class `\w`, JavaScript's `trim`, and
  the decimal rendering of the summary's video number.
- `Extractor` (extractor.dfy) models `extractVideyURLs`. The extraction is a
  positional scanner that follows the global regular-expression search.
  Beside it is a declarative reference definition of a leftmost,
  non-overlapping search, and the scanner is proved equal to it. Further
  lemmas cover ordering, emptiness, locality across separators, and the
  absence of deduplication. An item holds the captured id. Its url and
  filename are computed from that id, as the source builds both from
  `match[1]`.
- `Downloader` (downloader.dfy) models `downloadVideo`. The filesystem
  becomes the set of paths that `existsSync` reports. The network and the
  write stream become a `Transfer`, which either finishes or fails with a
  message.
- `Driver` (driver.dfy) models `main` as a pure function of what it reads:
  the file (absent or its text), the prompt answer, the folder's files, how
  the cleanup ended, and how each fetch ends. It covers the four early
  aborts, the mode choice, the concurrent downloads, and the summary lines.

`map` calls `downloadVideo` for every item before any call resumes from its
first `await`. Each call runs its existence check synchronously, before that
`await`. So every existence check runs before any `createWriteStream` creates
a file. Except after a truncate whose cleanup failed, every item is therefore
decided against the same folder state: the one left by the mode's
preparation.

`downloadVideo` catches the errors of its request and of its write stream
and turns them into an `Error:` message, so every result that
`Promise.allSettled` reports is fulfilled with the download's message. A
rejected result cannot be represented in the model, and the summary is built
from the download messages directly.

Repeated URLs give repeated items: extraction does not deduplicate
(`Extractor.NoDeduplication`).

## Model

| member | source | states |
|---|---|---|
| Text.TrimStart | app.js:105 | the result is a suffix of the input, everything dropped is JavaScript white space, and the result does not start with white space |
| Text.TrimEnd | app.js:105 | the result is a prefix of the input, everything dropped is white space, and the result does not end with white space |
| Text.Trim | app.js:105 | the result is the infix left after removing the leading and trailing white space runs; what was dropped is white space, and the result neither starts nor ends with white space |
| Text.TrimEmptyIff | app.js:105-109 | the trimmed file is empty exactly when every character of the file is white space |
| Text.Decimal | app.js:137 | the video number is rendered as a non-empty digit string without leading zeros that reads back to the number |
| Extractor.WordRunEnd | app.js:56 | the greedy `[\w\d]+` stops at the first non-word character or at the end of the input, and everything it passes over is a word character |
| Extractor.PrefixesExclusive | app.js:56 | `http://` and `https://` never both match at one position, so `s?` has a single way to match |
| Extractor.MatchAt | app.js:56 | an anchored attempt that succeeds reports a match starting at the attempted position, with a non-empty id, inside the input |
| Extractor.MatchAtCorrect | app.js:56 | an anchored attempt returns a genuine match starting there, and returns nothing exactly when no match starts there |
| Extractor.MatchUnique | app.js:56 | two matches with the same start are the same match: the id extent is determined |
| Extractor.Scan | app.js:56-58 | every element of the global scan lies inside the input, at or after the starting point, with a non-empty id |
| Extractor.ScanMatches | app.js:56-58 | every element of the global scan is a match of the pattern |
| Extractor.ItemsOf | app.js:58-62 | one item per match, in match order, each built from the id the match captures; the item's `Url()` is `https://cdn.videy.co/<id>.mp4` and its `Filename()` is `<id>.mp4` |
| Extractor.Extract | app.js:55-63 | every item's id is a non-empty word token |
| Extractor.FilenameInjective | app.js:59-61 | two items have the same filename `<id>.mp4` if and only if they are the same item, that is, have the same id |
| Extractor.ScanLeftmost | app.js:56-58 | the scanner computes the leftmost non-overlapping search: each match starts after the previous one ends, and no match starts in any skipped gap |
| Extractor.LeftmostUnique | app.js:56-58 | the leftmost non-overlapping search has only one result, so the reference definition fixes the item list |
| Extractor.ExtractIsReference | app.js:55-63 | the items are exactly those of the one leftmost, non-overlapping list of matches of the whole input, in order |
| Extractor.ScanOrdered | app.js:56-58 | matches come in input order and never overlap |
| Extractor.ExtractEmptyIff | app.js:111-115 | extraction finds nothing exactly when the pattern occurs nowhere in the input |
| Extractor.ScanBeforeBlock | app.js:56-58 | before a separator or the end of the input, the global scan of the whole input agrees with the scan of the part before it, and then carries on from it |
| Extractor.ScanAfter | app.js:56-58 | matching only looks forward: the scan of `p + b` from inside `b` is the scan of `b` alone, with positions moved by the length of `p` |
| Extractor.SeparatorSplit | app.js:56-58 | a separator (a non-word character that is not part of the URL prefix, such as a newline or a space) splits the input: the items of `a`, separator, `b` are the items of `a` followed by the items of `b` |
| Extractor.ExtractSingle | app.js:56-62 | a lone page URL with a valid id yields exactly the one item of that id |
| Extractor.ExtractJoin | app.js:56-58 | the items of lines joined by a separator are the items of each line, line by line |
| Extractor.NoDeduplication | app.js:58 | the same page URL written k times yields k identical items |
| Downloader.MessageKinds | app.js:29-50 | the skip, saved and error messages can be told apart by their first words, and the saved path and the error text can be read back from them |
| Downloader.DownloadVideo | app.js:25-52 | a present destination is skipped with no fetch, whatever the network would do; otherwise exactly one fetch of the CDN url into the destination starts, and the message says saved exactly when the transfer finished and error exactly when it failed, carrying the path or the error text |
| Downloader.JoinPathInjective | app.js:26 | two file names in one folder give the same destination if and only if they are equal |
| Driver.ParseMode | app.js:119-125 | the trimmed answer `t` or `T` selects truncate, `a` or `A` selects add, and any other answer is refused |
| Driver.FolderAfter | app.js:79-89 | adding leaves the folder as it is; truncating never adds files and empties the folder when the cleanup succeeds |
| Driver.SummaryFrom | app.js:135-138 | one summary line per download, in download order, numbered consecutively from the given first number and carrying that download's message |
| Driver.DownloadAll | app.js:129-132 | one outcome per item, in item order, each the `downloadVideo` of that item against the same folder state and with the item's own transfer: skipped exactly when its destination exists, otherwise fetched from its own url into its own path, saved exactly when its own transfer finished and error exactly when it failed |
| Driver.Complete | app.js:129-138 | a run past every check downloads each item with its own transfer, against the folder its mode left, and prints line k for item k with that download's message |
| Driver.RunMain | app.js:92-141 | a run completes exactly when the file exists, its trimmed text is non-empty and holds a URL, and the answer is valid. A completed run downloads exactly the items extracted from the trimmed text; line k of the summary is `- Video <k+1>: <message of item k>`; in add mode exactly the items whose file exists are skipped; after a successful truncate every item is fetched; download k is the `downloadVideo` of item k with transfer k |
| Driver.RunOutcomes | app.js:129-138 | line k of a completed run's summary reports item k as skipped exactly when its file was in the folder the mode left, as saved to its destination exactly when it was fetched and its own transfer finished, and with its own transfer's error text exactly when that failed |
| Driver.RunAborts | app.js:96-125 | each early stop happens exactly in its own situation, in the source's order: the file is missing; the file is only white space; the pattern occurs nowhere; the answer is neither `a` nor `t` |
| Driver.SummaryLineInjective | app.js:137 | a summary line determines its video number and its message |
| Driver.DestinationsFollowIds | app.js:26-61 | within a run, two items share a destination path if and only if they share an id, so the copies of a repeated id are both skipped or both fetched, into that one path, except after a truncate whose cleanup failed |

## Left out

- Creating `urls.txt` when it is missing, the `mkdir` of `downloads`, and resolving paths from the module's own directory: the model takes the folder path as a parameter.
- The spinners, `console` output other than the summary lines, and the "Found N video(s)" line: they are display only.
- The HTTP request, the response stream and the file write are folded into one `Transfer` outcome per item. The file a finished transfer writes, and a partial file left by a failed one, are not tracked.
- `error.message` is taken as the given failure text. Errors without a message, which render as `undefined`, are not distinguished.
- Downloader.DownloadVideo: a call that never settles is not modelled. `response.data.pipe(writer)` does not forward an error of the response stream to `writer`, and the promise awaited at app.js:41-44 listens only to `writer`; a response stream that fails or stalls (the request sets no timeout) leaves the call pending, and the summary is then never printed. A `Transfer` always ends.
- The outer `main().catch`, reached when writing or reading `urls.txt` fails: the model takes the file content as given.
- Strings are sequences of Unicode scalar values, not UTF-16 code units. This matters nowhere for the ASCII pattern, but positions differ from JavaScript's for astral characters.
- `toLowerCase` is modelled on ASCII letters only. No other character lower-cases to `t` or `a`.
- Driver.FolderAfter: a cleanup that fails part-way is modelled as leaving any subset of the files that were there, chosen by the caller, rather than the files whose `unlink` had not completed. `Promise.all` rejects on the first failed `unlink` while the other `unlink`s keep running, so they can finish between two existence checks. The model gives a run one folder state, so it cannot express a repeated id that is skipped once and fetched once after a failed cleanup.
- The interleaving of concurrent downloads: when one id occurs twice, both fetches write to the same path at once. The model records both requests but not the resulting file content.

=== FILE: downloader.dfy ===
/**
 The per-item decision of `downloadVideo` in `app.js`: skip a file that is
 already present, otherwise fetch it and report where it was saved, or report
 the error that stopped it.  An error from the request or from the write
 stream is caught, so a call that settles settles with a message.  A call
 that never settles, because the response stream failed or stalled without
 the write stream ending, is not modelled: `transfer` always ends.

 The filesystem and the network are parameters: `present` is the set of paths
 `existsSync` reports as existing, and `transfer` is how the HTTP request and
 the write stream ended.
 */
module Downloader {
  import opened Wrappers

  /** How the abstracted fetch-and-write ended: the write stream finished, or
      something (the request, the response, the stream) failed with a message. */
  datatype Transfer = Finished | Failed(message: string)

  /** The fetch `downloadVideo` starts: source URL and destination path. */
  datatype Request = Request(url: string, path: string)

  /** The message `downloadVideo` resolves to, and the fetch it started, if any. */
  datatype Download = Download(message: string, request: Option<Request>)

  /** The three kinds of message a reader of the summary can tell apart. */
  datatype Kind = Skipped | Saved | Errored | Other

  const SkipPrefix: string := "File \""
  const SkipSuffix: string := "\" already exists, skipping download."
  const SavedPrefix: string := "Saved to: "
  const ErrorPrefix: string := "Error: "

  /** `path.join` of the downloads folder and a file name on POSIX.  The
      folder is an absolute, normalised path ending in `downloads`, and the
      file name has no separator, so joining is concatenation with one `/`. */
  function JoinPath(dir: string, name: string): string {
    dir + "/" + name
  }

  function SkipMessage(filename: string): string {
    SkipPrefix + filename + SkipSuffix
  }

  function SavedMessage(path: string): string {
    SavedPrefix + path
  }

  function ErrorMessage(reason: string): string {
    ErrorPrefix + reason
  }

  predicate StartsWith(s: string, prefix: string) {
    |prefix| <= |s| && s[..|prefix|] == prefix
  }

  /** Reads the kind of a message back from its first words. */
  function KindOf(message: string): Kind {
    if StartsWith(message, SkipPrefix) then Skipped
    else if StartsWith(message, SavedPrefix) then Saved
    else if StartsWith(message, ErrorPrefix) then Errored
    else Other
  }

  /** The three message forms are told apart by their first words, and the
      saved path and the error text can be read back from them. */
  lemma MessageKinds(filename: string, path: string, reason: string)
    ensures KindOf(SkipMessage(filename)) == Skipped
    ensures KindOf(SavedMessage(path)) == Saved && SavedMessage(path)[|SavedPrefix|..] == path
    ensures KindOf(ErrorMessage(reason)) == Errored && ErrorMessage(reason)[|ErrorPrefix|..] == reason
  {
    assert SkipMessage(filename)[..|SkipPrefix|] == SkipPrefix;
    assert SavedMessage(path)[..|SavedPrefix|] == SavedPrefix;
    assert ErrorMessage(reason)[..|ErrorPrefix|] == ErrorPrefix;
    assert SavedMessage(path)[0] == 'S';
    assert ErrorMessage(reason)[0] == 'E';
  }

  /** `downloadVideo(url, filename)`: a present destination is skipped
      without any fetch; otherwise exactly one fetch of `url` into the
      destination is started and its ending decides the message. */
  function DownloadVideo(present: set<string>, dir: string, url: string, filename: string,
                         transfer: Transfer): (r: Download)
    ensures var path := JoinPath(dir, filename);
      && (r.request.None? <==> path in present)
      && (r.request.Some? ==> r.request.value == Request(url, path))
      && (KindOf(r.message) == Skipped <==> path in present)
      && (KindOf(r.message) == Saved <==> path !in present && transfer.Finished?)
      && (KindOf(r.message) == Errored <==> path !in present && transfer.Failed?)
      && (KindOf(r.message) == Saved ==> r.message[|SavedPrefix|..] == path)
      && (KindOf(r.message) == Errored ==> r.message[|ErrorPrefix|..] == transfer.message)
      && (path in present ==> r == Download(SkipMessage(filename), None))
  {
    var path := JoinPath(dir, filename);
    MessageKinds(filename, path, if transfer.Failed? then transfer.message else "");
    if path in present then
      Download(SkipMessage(filename), None)
    else
      match transfer
      case Finished => Download(SavedMessage(path), Some(Request(url, path)))
      case Failed(reason) => Download(ErrorMessage(reason), Some(Request(url, path)))
  }

  /** Different file names in one folder are different destinations. */
  lemma JoinPathInjective(dir: string, name1: string, name2: string)
    ensures JoinPath(dir, name1) == JoinPath(dir, name2) <==> name1 == name2
  {
    if JoinPath(dir, name1) == JoinPath(dir, name2) {
      var n := |dir| + 1;
      assert name1 == JoinPath(dir, name1)[n..];
      assert name2 == JoinPath(dir, name2)[n..];
    }
  }
}

=== FILE: driver.dfy ===
/**
 The run driver `main` of `app.js`, as a pure function of what it reads:
 the content of `urls.txt` (absent when the file does not exist), the answer
 typed at the mode prompt, the files already in the downloads folder, how the
 truncating cleanup ended, and how each item's fetch ends.

 It aborts on a missing file, on a file with nothing but white space, on a
 file without any page URL and on an answer other than `a` or `t`; otherwise
 it downloads every extracted item against one folder state and prints
 one summary line per item, in input order.
 */
module Driver {
  import opened Wrappers
  import opened Text
  import opened Extractor
  import opened Downloader

  /** `A`dd new videos, or `T`runcate the downloads folder first. */
  datatype Mode = Add | Truncate

  /** Why a run stops before any download starts. */
  datatype Abort = UrlsFileMissing | EmptyInput | NoUrls | InvalidOption

  /** How `cleanDownloadsFolder` ended: every file removed, or an error that
      it caught after removing some of them (`kept` holds the survivors). */
  datatype Cleanup = CleanedAll | CleanFailed(kept: set<string>)

  datatype Run =
    | Aborted(reason: Abort)
    | Completed(mode: Mode, items: seq<Item>, downloads: seq<Download>, summary: seq<string>)

  /** `toLowerCase` on the ASCII letters; no other character lower-cases to
      an ASCII letter, so comparisons with `"t"` and `"a"` are exact. */
  function LowerAscii(c: char): char {
    if 'A' <= c <= 'Z' then (c as int + 32) as char else c
  }

  /** The prompt's answer, trimmed by the prompt and lower-cased by `main`:
      `t` or `T` truncates, `a` or `A` adds, anything else is refused. */
  function ParseMode(answer: string): (r: Option<Mode>)
    ensures r == Some(Truncate) <==> Trim(answer) == "t" || Trim(answer) == "T"
    ensures r == Some(Add) <==> Trim(answer) == "a" || Trim(answer) == "A"
  {
    var m := Trim(answer);
    if |m| == 1 && LowerAscii(m[0]) == 't' then Some(Truncate)
    else if |m| == 1 && LowerAscii(m[0]) == 'a' then Some(Add)
    else None
  }

  /** The files the existence checks see.  Adding leaves the folder alone;
      truncating empties it, or, if the cleanup failed part-way, leaves some
      of the files that were there. */
  function FolderAfter(present: set<string>, mode: Mode, cleanup: Cleanup): (r: set<string>)
    ensures r <= present
    ensures mode == Add ==> r == present
    ensures mode == Truncate && cleanup == CleanedAll ==> r == {}
  {
    match mode
    case Add => present
    case Truncate =>
      match cleanup
      case CleanedAll => {}
      case CleanFailed(kept) => present * kept
  }

  /** `- Video <index + 1>: <message>`. */
  function SummaryLine(index: nat, message: string): string {
    "- Video " + Decimal(index + 1) + ": " + message
  }

  /** The `forEach` over the settled results, numbering from `first`.
      `downloadVideo` catches the errors of its fetch, so every result is
      fulfilled with the download's message; a rejected result has no
      counterpart here. */
  function SummaryFrom(downloads: seq<Download>, first: nat): (r: seq<string>)
    ensures |r| == |downloads|
    ensures forall k :: 0 <= k < |downloads| ==> r[k] == SummaryLine(first + k, downloads[k].message)
  {
    if downloads == [] then []
    else [SummaryLine(first, downloads[0].message)] + SummaryFrom(downloads[1..], first + 1)
  }

  /** The `Promise.allSettled` over `downloadVideo` for every item: one
      outcome per item, in item order, each decided against `folder` and
      by the item's own transfer. */
  function DownloadAll(folder: set<string>, dir: string, items: seq<Item>,
                       transfer: nat -> Transfer): (r: seq<Download>)
    ensures |r| == |items|
    ensures forall k :: 0 <= k < |items| ==>
      r[k] == DownloadVideo(folder, dir, items[k].Url(), items[k].Filename(), transfer(k))
    ensures forall k :: 0 <= k < |items| ==>
      var path := JoinPath(dir, items[k].Filename());
      && (r[k].request.None? <==> path in folder)
      && (r[k].request.Some? ==> r[k].request.value == Request(items[k].Url(), path))
      && (KindOf(r[k].message) == Skipped <==> path in folder)
      && (KindOf(r[k].message) == Saved <==> path !in folder && transfer(k).Finished?)
      && (KindOf(r[k].message) == Errored <==> path !in folder && transfer(k).Failed?)
  {
    var r := seq(|items|, k requires 0 <= k < |items| =>
      DownloadVideo(folder, dir, items[k].Url(), items[k].Filename(), transfer(k)));
    assert forall k :: 0 <= k < |items| ==>
      r[k] == DownloadVideo(folder, dir, items[k].Url(), items[k].Filename(), transfer(k));
    r
  }

  /** The downloads and the summary of a run that got past every check:
      each item is decided against the folder the mode left, and line k of
      the summary reports item k. */
  function Complete(mode: Mode, items: seq<Item>, present: set<string>, cleanup: Cleanup,
                    dir: string, transfer: nat -> Transfer): (r: Run)
    ensures r.Completed? && r.mode == mode && r.items == items
    ensures |r.downloads| == |r.items| && |r.summary| == |r.items|
    ensures forall k :: 0 <= k < |r.items| ==>
      var path := JoinPath(dir, r.items[k].Filename());
      && r.summary[k] == SummaryLine(k, r.downloads[k].message)
      && KindOf(r.downloads[k].message) != Other
      && (r.mode == Add ==> (r.downloads[k].request.None? <==> path in present))
      && (r.mode == Truncate && cleanup == CleanedAll ==> r.downloads[k].request.Some?)
      && (r.downloads[k].request.Some? ==>
            r.downloads[k].request.value == Request(r.items[k].Url(), path))
      && r.downloads[k] == DownloadVideo(FolderAfter(present, r.mode, cleanup), dir,
                                         r.items[k].Url(), r.items[k].Filename(), transfer(k))
  {
    var downloads := DownloadAll(FolderAfter(present, mode, cleanup), dir, items, transfer);
    Completed(mode, items, downloads, SummaryFrom(downloads, 0))
  }

  /** `main`.  Every existence check runs before any download resumes
      from its first `await`, so before any `createWriteStream` creates a
      file; except after a truncate whose cleanup failed, all items therefore
      see the same folder: the one left by the mode's preparation.  A completed run downloads exactly the items
      extracted from the trimmed file and prints one line per item,
      numbered from 1 in input order. */
  function RunMain(file: Option<string>, answer: string, present: set<string>, cleanup: Cleanup,
                   dir: string, transfer: nat -> Transfer): (r: Run)
    ensures r.Completed? <==>
      && file.Some?
      && Trim(file.value) != []
      && Extract(Trim(file.value)) != []
      && ParseMode(answer).Some?
    ensures r.Completed? ==>
      && file.Some? && r.items == Extract(Trim(file.value))
      && ParseMode(answer) == Some(r.mode)
      && |r.downloads| == |r.items| && |r.summary| == |r.items|
      && forall k :: 0 <= k < |r.items| ==>
           var path := JoinPath(dir, r.items[k].Filename());
           && r.summary[k] == SummaryLine(k, r.downloads[k].message)
           && KindOf(r.downloads[k].message) != Other
           && (r.mode == Add ==> (r.downloads[k].request.None? <==> path in present))
           && (r.mode == Truncate && cleanup == CleanedAll ==> r.downloads[k].request.Some?)
           && (r.downloads[k].request.Some? ==>
                 r.downloads[k].request.value == Request(r.items[k].Url(), path))
           && r.downloads[k] == DownloadVideo(FolderAfter(present, r.mode, cleanup), dir,
                                              r.items[k].Url(), r.items[k].Filename(), transfer(k))
  {
    if file.None? then Aborted(UrlsFileMissing)
    else
      var input := Trim(file.value);
      if input == [] then Aborted(EmptyInput)
      else
        var items := Extract(input);
        if |items| == 0 then Aborted(NoUrls)
        else
          match ParseMode(answer)
          case None => Aborted(InvalidOption)
          case Some(mode) => Complete(mode, items, present, cleanup, dir, transfer)
  }

  /** Each abort happens exactly in its own situation, checked in the
      source's order: no file, a file of white space only, a file in which
      the pattern occurs nowhere, an answer other than `a` or `t`. */
  lemma RunAborts(file: Option<string>, answer: string, present: set<string>, cleanup: Cleanup,
                  dir: string, transfer: nat -> Transfer)
    ensures var r := RunMain(file, answer, present, cleanup, dir, transfer);
      && (r == Aborted(UrlsFileMissing) <==> file.None?)
      && (r == Aborted(EmptyInput) <==>
            file.Some? && forall k :: 0 <= k < |file.value| ==> IsJsSpace(file.value[k]))
      && (r == Aborted(NoUrls) <==>
            file.Some? && Trim(file.value) != [] && forall m :: !IsMatch(Trim(file.value), m))
      && (r == Aborted(InvalidOption) <==>
            file.Some? && Extract(Trim(file.value)) != [] && ParseMode(answer).None?)
  {
    if file.Some? {
      TrimEmptyIff(file.value);
      ExtractEmptyIff(Trim(file.value));
    }
  }

  /** What line k of the summary of a completed run reports about item k:
      skipped exactly when its file was in the folder the mode left, saved
      into its destination exactly when it was fetched and its own transfer
      finished, and the error of its own transfer exactly when that failed. */
  lemma RunOutcomes(file: Option<string>, answer: string, present: set<string>, cleanup: Cleanup,
                    dir: string, transfer: nat -> Transfer)
    ensures var r := RunMain(file, answer, present, cleanup, dir, transfer);
      r.Completed? ==>
        forall k :: 0 <= k < |r.items| ==>
          var path := JoinPath(dir, r.items[k].Filename());
          var folder := FolderAfter(present, r.mode, cleanup);
          var message := r.downloads[k].message;
          && r.summary[k] == SummaryLine(k, message)
          && (KindOf(message) == Skipped <==> path in folder)
          && (KindOf(message) == Saved <==> path !in folder && transfer(k).Finished?)
          && (KindOf(message) == Errored <==> path !in folder && transfer(k).Failed?)
          && (KindOf(message) == Saved ==> message[|SavedPrefix|..] == path)
          && (KindOf(message) == Errored ==> message[|ErrorPrefix|..] == transfer(k).message)
  {
    var r := RunMain(file, answer, present, cleanup, dir, transfer);
    if r.Completed? {
      var folder := FolderAfter(present, r.mode, cleanup);
      forall k | 0 <= k < |r.items|
        ensures var path := JoinPath(dir, r.items[k].Filename());
          var message := r.downloads[k].message;
          && r.summary[k] == SummaryLine(k, message)
          && (KindOf(message) == Skipped <==> path in folder)
          && (KindOf(message) == Saved <==> path !in folder && transfer(k).Finished?)
          && (KindOf(message) == Errored <==> path !in folder && transfer(k).Failed?)
          && (KindOf(message) == Saved ==> message[|SavedPrefix|..] == path)
          && (KindOf(message) == Errored ==> message[|ErrorPrefix|..] == transfer(k).message)
      {
        var item := r.items[k];
        assert r.downloads[k] == DownloadVideo(folder, dir, item.Url(), item.Filename(), transfer(k));
      }
    }
  }

  /** A summary line names its item and its message unambiguously: equal
      lines have equal numbers and equal messages. */
  lemma SummaryLineInjective(k1: nat, m1: string, k2: nat, m2: string)
    requires SummaryLine(k1, m1) == SummaryLine(k2, m2)
    ensures k1 == k2 && m1 == m2
  {
    var head := "- Video ";
    var d1, d2 := Decimal(k1 + 1), Decimal(k2 + 1);
    var t1, t2 := d1 + ": " + m1, d2 + ": " + m2;
    assert SummaryLine(k1, m1) == head + t1;
    assert SummaryLine(k2, m2) == head + t2;
    assert t1 == (head + t1)[|head|..] == (head + t2)[|head|..] == t2;
    assert t1[|d1|] == ':' && t2[|d2|] == ':';
    assert forall i :: 0 <= i < |d1| ==> t1[i] == d1[i];
    assert forall i :: 0 <= i < |d2| ==> t2[i] == d2[i];
    assert |d1| == |d2|;
    assert d1 == t1[..|d1|] == t2[..|d2|] == d2;
    assert m1 == t1[|d1| + 2..] == t2[|d2| + 2..] == m2;
  }

  /** Items share a destination exactly when they share an id.  Since the
      existence checks all run before any file is written, two items with
      the same id in one run are both skipped or both fetched, into that one
      path, except after a truncate whose cleanup failed. */
  lemma DestinationsFollowIds(file: Option<string>, answer: string, present: set<string>,
                              cleanup: Cleanup, dir: string, transfer: nat -> Transfer)
    ensures var r := RunMain(file, answer, present, cleanup, dir, transfer);
      r.Completed? ==>
        forall i, j :: 0 <= i < |r.items| && 0 <= j < |r.items| ==>
          (JoinPath(dir, r.items[i].Filename()) == JoinPath(dir, r.items[j].Filename()) <==>
           r.items[i].id == r.items[j].id)
  {
    var r := RunMain(file, answer, present, cleanup, dir, transfer);
    if r.Completed? {
      forall i, j | 0 <= i < |r.items| && 0 <= j < |r.items|
        ensures JoinPath(dir, r.items[i].Filename()) == JoinPath(dir, r.items[j].Filename()) <==>
                r.items[i].id == r.items[j].id
      {
        FilenameInjective(r.items[i], r.items[j]);
        JoinPathInjective(dir, r.items[i].Filename(), r.items[j].Filename());
      }
    }
  }
}

=== FILE: extractor.dfy ===
/**
 The URL extractor of `app.js` (`extractVideyURLs`): a global scan of the
 input for the regular expression `https?://videy\.co/v\?id=([\w\d]+)`, one
 work item per match, in match order and without deduplication.

 Positions are indices into the input string.  A match is described by where
 it starts, where its captured id starts and where it ends (exclusive).
 */
module Extractor {
  import opened Wrappers
  import opened Text

  /** The two spellings of the literal part of the pattern (`s?` absent or
      present). */
  const HttpPrefix: string := "http://videy.co/v?id="
  const HttpsPrefix: string := "https://videy.co/v?id="

  /** The fixed download host and the file extension of every item. */
  const CdnBase: string := "https://cdn.videy.co/"
  const Extension: string := ".mp4"

  datatype Match = Match(start: nat, idStart: nat, end: nat)

  /** One entry of the extracted video list: `{id, url, filename}`.  The
      url and the filename are both built from the captured id alone. */
  datatype Item = Item(id: string) {
    /** `https://cdn.videy.co/<id>.mp4`. */
    function Url(): string {
      CdnBase + id + Extension
    }

    /** `<id>.mp4`. */
    function Filename(): string {
      id + Extension
    }
  }

  /** A non-empty run of word characters: the shape of every captured id. */
  predicate IsValidId(id: string) {
    id != [] && forall k :: 0 <= k < |id| ==> IsWordChar(id[k])
  }

  /** A character no match can contain: it is not a word character and does
      not occur in the literal part of the pattern (white space, a comma, a
      quote, ...). */
  predicate IsSeparator(c: char) {
    !IsWordChar(c) && c !in HttpPrefix && c !in HttpsPrefix
  }

  predicate LiteralAt(s: string, i: nat, lit: string) {
    i + |lit| <= |s| && s[i..i + |lit|] == lit
  }

  /** What it means for `m` to be a match of the pattern in `s` starting at
      `m.start`, independently of how the scanner finds it: one of the two
      literal prefixes, then a non-empty run of word characters that the
      greedy `+` extends as far as it can. */
  ghost predicate IsMatch(s: string, m: Match) {
    && m.start < m.idStart < m.end <= |s|
    && ((LiteralAt(s, m.start, HttpPrefix) && m.idStart == m.start + |HttpPrefix|)
        || (LiteralAt(s, m.start, HttpsPrefix) && m.idStart == m.start + |HttpsPrefix|))
    && (forall k :: m.idStart <= k < m.end ==> IsWordChar(s[k]))
    && (m.end == |s| || !IsWordChar(s[m.end]))
  }

  /** The greedy run `[\w\d]+` continued from `j`: the first position at or
      after `j` that is not a word character (or the end of the input). */
  function WordRunEnd(s: string, j: nat): (r: nat)
    requires j <= |s|
    ensures j <= r <= |s|
    ensures forall k :: j <= k < r ==> IsWordChar(s[k])
    ensures r == |s| || !IsWordChar(s[r])
    decreases |s| - j
  {
    if j < |s| && IsWordChar(s[j]) then WordRunEnd(s, j + 1) else j
  }

  /** The two prefixes never both occur at one position: the fifth character
      is `:` in one and `s` in the other.  So `s?` never needs to backtrack. */
  lemma PrefixesExclusive(s: string, i: nat)
    ensures !(LiteralAt(s, i, HttpPrefix) && LiteralAt(s, i, HttpsPrefix))
  {
    if LiteralAt(s, i, HttpPrefix) {
      assert s[i + 4] == s[i..i + |HttpPrefix|][4] == ':';
    }
  }

  /** The id that follows a prefix of length `n` at `i`, if there is one. */
  function TokenAfter(s: string, i: nat, n: nat): Option<Match>
    requires i + n <= |s|
  {
    var j := i + n;
    if j < |s| && IsWordChar(s[j]) then Some(Match(i, j, WordRunEnd(s, j + 1))) else None
  }

  /** Matching the pattern anchored at position `i`: a match found there
      starts at `i` and has a non-empty id inside the input. */
  function MatchAt(s: string, i: nat): (r: Option<Match>)
    requires i <= |s|
    ensures r.Some? ==> r.value.start == i < r.value.idStart < r.value.end <= |s|
  {
    if LiteralAt(s, i, HttpPrefix) then TokenAfter(s, i, |HttpPrefix|)
    else if LiteralAt(s, i, HttpsPrefix) then TokenAfter(s, i, |HttpsPrefix|)
    else None
  }

  /** The anchored attempt is exact: what it returns is a match of the
      pattern, and it returns nothing exactly when no match starts at `i`. */
  lemma MatchAtCorrect(s: string, i: nat)
    requires i <= |s|
    ensures MatchAt(s, i).Some? ==> IsMatch(s, MatchAt(s, i).value)
    ensures MatchAt(s, i).None? ==> forall m :: IsMatch(s, m) ==> m.start != i
  {
    PrefixesExclusive(s, i);
  }

  /** A match is determined by where it starts. */
  lemma MatchUnique(s: string, m1: Match, m2: Match)
    requires IsMatch(s, m1) && IsMatch(s, m2) && m1.start == m2.start
    ensures m1 == m2
  {
    PrefixesExclusive(s, m1.start);
    assert m1.idStart == m2.idStart;
  }

  /** The global scan from `i`: the leftmost match at or after `i`, then the
      scan resumed at that match's end (`lastIndex`), until the input ends. */
  function Scan(s: string, i: nat): (r: seq<Match>)
    requires i <= |s|
    ensures forall k :: 0 <= k < |r| ==> i <= r[k].start < r[k].idStart < r[k].end <= |s|
    decreases |s| - i
  {
    if i == |s| then []
    else
      match MatchAt(s, i)
      case Some(m) => [m] + Scan(s, m.end)
      case None => Scan(s, i + 1)
  }

  /** Everything the scan returns is a match of the pattern. */
  lemma {:induction false} ScanMatches(s: string, i: nat)
    requires i <= |s|
    ensures forall k :: 0 <= k < |Scan(s, i)| ==> IsMatch(s, Scan(s, i)[k])
    decreases |s| - i
  {
    if i < |s| {
      MatchAtCorrect(s, i);
      match MatchAt(s, i)
      case Some(m) =>
        ScanCons(s, i, m);
        ScanMatches(s, m.end);
      case None =>
        ScanSkip(s, i);
        ScanMatches(s, i + 1);
    }
  }

  predicate Within(s: string, ms: seq<Match>) {
    forall k :: 0 <= k < |ms| ==> ms[k].idStart <= ms[k].end <= |s|
  }

  /** The items of a list of matches, in the same order. */
  function ItemsOf(s: string, ms: seq<Match>): (r: seq<Item>)
    requires Within(s, ms)
    ensures |r| == |ms|
    ensures forall k :: 0 <= k < |ms| ==> r[k] == Item(s[ms[k].idStart..ms[k].end])
  {
    if ms == [] then [] else [Item(s[ms[0].idStart..ms[0].end])] + ItemsOf(s, ms[1..])
  }

  /** `extractVideyURLs`: total, never fails; each item's id is a non-empty
      word token. */
  function Extract(s: string): (r: seq<Item>)
    ensures forall k :: 0 <= k < |r| ==> IsValidId(r[k].id)
  {
    var ms := Scan(s, 0);
    var r := ItemsOf(s, ms);
    ScanMatches(s, 0);
    assert forall k :: 0 <= k < |r| ==> r[k].id == s[ms[k].idStart..ms[k].end] && IsMatch(s, ms[k]);
    r
  }

  /** Equal ids give equal filenames, and different ids different ones: the
      filename is an injective function of the id alone. */
  lemma FilenameInjective(a: Item, b: Item)
    ensures a.Filename() == b.Filename() <==> a == b
  {
    if a.Filename() == b.Filename() {
      assert |a.id| == |b.id|;
      assert a.id == (a.id + Extension)[..|a.id|];
      assert b.id == (b.id + Extension)[..|b.id|];
    }
  }

  /* ---------------------------------------------------------------------
     The scan is a global, leftmost, non-overlapping search.
     --------------------------------------------------------------------- */

  /** No match of the pattern starts in `[lo, hi)`. */
  ghost predicate NoMatchStartsIn(s: string, lo: nat, hi: nat) {
    forall m :: IsMatch(s, m) ==> !(lo <= m.start < hi)
  }

  /** Where the search for the `k`-th match begins: `from`, or the end of
      the previous match. */
  function GapStart(from: nat, ms: seq<Match>, k: nat): nat
    requires k <= |ms|
  {
    if k == 0 then from else ms[k - 1].end
  }

  /** Where the search for the `k`-th match succeeds: its start, or the end
      of the input after the last match. */
  function GapEnd(s: string, ms: seq<Match>, k: nat): nat
    requires k <= |ms|
  {
    if k < |ms| then ms[k].start else |s|
  }

  /** Reference definition of a global search of `s` from `from`: every
      element is a match, each lies at or after the end of the one before,
      and no match starts anywhere the search skipped over. */
  ghost predicate LeftmostMatches(s: string, from: nat, ms: seq<Match>) {
    && from <= |s|
    && (forall k :: 0 <= k < |ms| ==> IsMatch(s, ms[k]) && GapStart(from, ms, k) <= ms[k].start)
    && (forall k :: 0 <= k <= |ms| ==> NoMatchStartsIn(s, GapStart(from, ms, k), GapEnd(s, ms, k)))
  }

  /** The gaps of `[m] + rest` after the first are the gaps of `rest`. */
  lemma GapsOfCons(s: string, from: nat, m: Match, rest: seq<Match>, k: nat)
    requires 0 < k <= |rest| + 1
    ensures GapStart(from, [m] + rest, k) == GapStart(m.end, rest, k - 1)
    ensures GapEnd(s, [m] + rest, k) == GapEnd(s, rest, k - 1)
  {
    var ms := [m] + rest;
    if k < |ms| {
      assert ms[k] == rest[k - 1];
    }
    if k > 1 {
      assert ms[k - 1] == rest[k - 2];
    }
  }

  lemma ConsLeftmost(s: string, from: nat, m: Match, rest: seq<Match>)
    requires IsMatch(s, m) && from <= m.start
    requires NoMatchStartsIn(s, from, m.start)
    requires LeftmostMatches(s, m.end, rest)
    ensures LeftmostMatches(s, from, [m] + rest)
  {
    var ms := [m] + rest;
    forall k | 0 <= k < |ms|
      ensures IsMatch(s, ms[k]) && GapStart(from, ms, k) <= ms[k].start
    {
      if k > 0 {
        GapsOfCons(s, from, m, rest, k);
        assert ms[k] == rest[k - 1];
      }
    }
    forall k | 0 <= k <= |ms|
      ensures NoMatchStartsIn(s, GapStart(from, ms, k), GapEnd(s, ms, k))
    {
      if k == 0 {
        assert GapStart(from, ms, k) == from && GapEnd(s, ms, k) == m.start;
      } else {
        GapsOfCons(s, from, m, rest, k);
      }
    }
  }

  lemma UnconsLeftmost(s: string, from: nat, ms: seq<Match>)
    requires LeftmostMatches(s, from, ms) && ms != []
    ensures IsMatch(s, ms[0]) && from <= ms[0].start
    ensures NoMatchStartsIn(s, from, ms[0].start)
    ensures LeftmostMatches(s, ms[0].end, ms[1..])
  {
    var rest := ms[1..];
    assert GapStart(from, ms, 0) == from && GapEnd(s, ms, 0) == ms[0].start;
    forall k | 0 <= k <= |rest|
      ensures GapStart(ms[0].end, rest, k) == GapStart(from, ms, k + 1)
      ensures GapEnd(s, rest, k) == GapEnd(s, ms, k + 1)
    {
    }
  }

  /** Skipping a position where no match starts does not change the search. */
  lemma WidenLeftmost(s: string, from: nat, ms: seq<Match>)
    requires from < |s| && LeftmostMatches(s, from + 1, ms)
    requires forall m :: IsMatch(s, m) ==> m.start != from
    ensures LeftmostMatches(s, from, ms)
  {
    forall k | 0 < k <= |ms|
      ensures GapStart(from, ms, k) == GapStart(from + 1, ms, k)
    {
    }
    assert NoMatchStartsIn(s, GapStart(from + 1, ms, 0), GapEnd(s, ms, 0));
  }

  /** The scanner computes the global search. */
  lemma {:induction false} ScanLeftmost(s: string, i: nat)
    requires i <= |s|
    ensures LeftmostMatches(s, i, Scan(s, i))
    decreases |s| - i
  {
    if i == |s| {
      assert GapEnd(s, Scan(s, i), 0) == i;
    } else {
      MatchAtCorrect(s, i);
      match MatchAt(s, i)
      case Some(m) =>
        ScanLeftmost(s, m.end);
        ConsLeftmost(s, i, m, Scan(s, m.end));
      case None =>
        ScanLeftmost(s, i + 1);
        WidenLeftmost(s, i, Scan(s, i + 1));
    }
  }

  /** Any match at or after `from` is preceded (or equalled) by the first
      element of the search. */
  lemma FirstMatchIsLeftmost(s: string, from: nat, ms: seq<Match>, m: Match)
    requires LeftmostMatches(s, from, ms)
    requires IsMatch(s, m) && from <= m.start
    ensures ms != [] && ms[0].start <= m.start
  {
    assert NoMatchStartsIn(s, GapStart(from, ms, 0), GapEnd(s, ms, 0));
  }

  /** The global search has only one result, so the reference definition
      pins the scanner down completely. */
  lemma {:induction false} LeftmostUnique(s: string, from: nat, ms1: seq<Match>, ms2: seq<Match>)
    requires LeftmostMatches(s, from, ms1) && LeftmostMatches(s, from, ms2)
    ensures ms1 == ms2
    decreases |ms1|
  {
    if ms1 != [] {
      FirstMatchIsLeftmost(s, from, ms2, ms1[0]);
    }
    if ms2 != [] {
      FirstMatchIsLeftmost(s, from, ms1, ms2[0]);
    }
    if ms1 != [] && ms2 != [] {
      MatchUnique(s, ms1[0], ms2[0]);
      UnconsLeftmost(s, from, ms1);
      UnconsLeftmost(s, from, ms2);
      LeftmostUnique(s, ms1[0].end, ms1[1..], ms2[1..]);
    }
  }

  /** `extractVideyURLs` end to end: the items are those of the one
      leftmost, non-overlapping list of matches of the whole input. */
  lemma ExtractIsReference(s: string, ms: seq<Match>)
    requires LeftmostMatches(s, 0, ms)
    ensures Within(s, ms) && Extract(s) == ItemsOf(s, ms)
  {
    ScanLeftmost(s, 0);
    LeftmostUnique(s, 0, Scan(s, 0), ms);
  }

  /** The items appear in the order of their matches, which never overlap:
      each search resumes where the previous match ended. */
  lemma ScanOrdered(s: string)
    ensures var ms := Scan(s, 0);
      forall k :: 0 <= k < |ms| - 1 ==> ms[k].start < ms[k].end <= ms[k + 1].start
  {
    var ms := Scan(s, 0);
    ScanLeftmost(s, 0);
    forall k | 0 <= k < |ms| - 1
      ensures ms[k].end <= ms[k + 1].start
    {
      assert GapStart(0, ms, k + 1) == ms[k].end;
    }
  }

  /** Extraction is empty exactly when the pattern occurs nowhere. */
  lemma ExtractEmptyIff(s: string)
    ensures Extract(s) == [] <==> forall m :: !IsMatch(s, m)
  {
    var ms := Scan(s, 0);
    ScanLeftmost(s, 0);
    if ms == [] {
      assert NoMatchStartsIn(s, GapStart(0, ms, 0), GapEnd(s, ms, 0));
    } else {
      assert IsMatch(s, ms[0]);
    }
  }

  /* ---------------------------------------------------------------------
     Locality: a separator splits the input into independent parts.
     --------------------------------------------------------------------- */

  /** Position `q` stops every match: it is the end of the input or holds a
      separator. */
  predicate Blocked(s: string, q: nat) {
    q == |s| || (q < |s| && IsSeparator(s[q]))
  }

  /** A literal prefix found at or before a blocked position ends by it. */
  lemma LiteralBeforeBlock(s: string, p: nat, q: nat, lit: string)
    requires Blocked(s, q) && p <= q
    requires lit == HttpPrefix || lit == HttpsPrefix
    requires LiteralAt(s, p, lit)
    ensures p + |lit| <= q
  {
    if q < |s| {
      assert forall k :: p <= k < p + |lit| ==> s[k] == lit[k - p] && s[k] in lit;
    }
  }

  /** Two inputs that agree up to a blocked position `q` have the same word
      runs before `q`. */
  lemma {:induction false} WordRunBeforeBlock(s: string, t: string, q: nat, j: nat)
    requires q <= |s| && q <= |t| && s[..q] == t[..q]
    requires Blocked(s, q) && Blocked(t, q) && j <= q
    ensures WordRunEnd(s, j) == WordRunEnd(t, j) <= q
    decreases q - j
  {
    if j < q {
      assert s[j] == s[..q][j] == t[j];
      WordRunBeforeBlock(s, t, q, j + 1);
    }
  }

  lemma LiteralBeforeBlockAgrees(s: string, t: string, q: nat, p: nat, lit: string)
    requires q <= |s| && q <= |t| && s[..q] == t[..q]
    requires Blocked(s, q) && Blocked(t, q) && p <= q
    requires lit == HttpPrefix || lit == HttpsPrefix
    ensures LiteralAt(s, p, lit) <==> LiteralAt(t, p, lit)
    ensures LiteralAt(s, p, lit) ==> p + |lit| <= q
  {
    if LiteralAt(s, p, lit) {
      LiteralBeforeBlock(s, p, q, lit);
      assert s[p..p + |lit|] == s[..q][p..p + |lit|] == t[p..p + |lit|];
    }
    if LiteralAt(t, p, lit) {
      LiteralBeforeBlock(t, p, q, lit);
      assert t[p..p + |lit|] == t[..q][p..p + |lit|] == s[p..p + |lit|];
    }
  }

  lemma TokenBeforeBlockAgrees(s: string, t: string, q: nat, p: nat, n: nat)
    requires q <= |s| && q <= |t| && s[..q] == t[..q]
    requires Blocked(s, q) && Blocked(t, q) && p + n <= q
    ensures TokenAfter(s, p, n) == TokenAfter(t, p, n)
    ensures TokenAfter(s, p, n).Some? ==> TokenAfter(s, p, n).value.end <= q
  {
    var j := p + n;
    if j < q {
      assert s[j] == s[..q][j] == t[j];
      if IsWordChar(s[j]) {
        WordRunBeforeBlock(s, t, q, j + 1);
      }
    }
  }

  /** Matching at or before a blocked position looks no further than it. */
  lemma MatchBeforeBlock(s: string, t: string, q: nat, p: nat)
    requires q <= |s| && q <= |t| && s[..q] == t[..q]
    requires Blocked(s, q) && Blocked(t, q) && p <= q
    ensures MatchAt(s, p) == MatchAt(t, p)
    ensures MatchAt(s, p).Some? ==> MatchAt(s, p).value.end <= q
  {
    LiteralBeforeBlockAgrees(s, t, q, p, HttpPrefix);
    LiteralBeforeBlockAgrees(s, t, q, p, HttpsPrefix);
    if LiteralAt(s, p, HttpPrefix) {
      TokenBeforeBlockAgrees(s, t, q, p, |HttpPrefix|);
    } else if LiteralAt(s, p, HttpsPrefix) {
      TokenBeforeBlockAgrees(s, t, q, p, |HttpsPrefix|);
    }
  }

  /** Matching at `y` in `s` is matching at `y` in its first `q`
      characters, and a match found there ends by `q`. */
  predicate PrefixMatchAt(s: string, q: nat, y: nat)
    requires y < q <= |s|
  {
    && MatchAt(s, y) == MatchAt(s[..q], y)
    && (MatchAt(s, y).Some? ==> MatchAt(s, y).value.end <= q)
  }

  /** A step of `ScanPrefixed` that takes the match `m` at `i`. */
  lemma PrefixCons(s: string, q: nat, i: nat, m: Match)
    requires i < q <= |s| && MatchAt(s, i) == Some(m) && PrefixMatchAt(s, q, i)
    requires Scan(s, m.end) == Scan(s[..q], m.end) + Scan(s, q)
    ensures Scan(s, i) == Scan(s[..q], i) + Scan(s, q)
  {
    assert MatchAt(s[..q], i) == Some(m);
    ScanCons(s, i, m);
    ScanCons(s[..q], i, m);
    ConsAssoc(m, Scan(s[..q], m.end), Scan(s, q));
  }

  /** A step of `ScanPrefixed` past a position without a match. */
  lemma PrefixSkip(s: string, q: nat, i: nat)
    requires i < q <= |s| && MatchAt(s, i).None? && PrefixMatchAt(s, q, i)
    requires Scan(s, i + 1) == Scan(s[..q], i + 1) + Scan(s, q)
    ensures Scan(s, i) == Scan(s[..q], i) + Scan(s, q)
  {
    ScanSkip(s, i);
    ScanSkip(s[..q], i);
  }

  /** The scan of `s` from `i` is the scan of its first `q` characters,
      then the scan of `s` from `q`, when matching anywhere in between
      looks no further than `q`. */
  lemma {:induction false} ScanPrefixed(s: string, q: nat, i: nat)
    requires q <= |s| && i <= q
    requires forall y :: i <= y < q ==> PrefixMatchAt(s, q, y)
    ensures Scan(s, i) == Scan(s[..q], i) + Scan(s, q)
    decreases q - i
  {
    if i == q {
      assert Scan(s[..q], i) == [];
    } else {
      assert PrefixMatchAt(s, q, i);
      if MatchAt(s, i).Some? {
        var m := MatchAt(s, i).value;
        ScanPrefixed(s, q, m.end);
        assert Scan(s, m.end) == Scan(s[..q], m.end) + Scan(s, q);
        PrefixCons(s, q, i, m);
      } else {
        ScanPrefixed(s, q, i + 1);
        assert Scan(s, i + 1) == Scan(s[..q], i + 1) + Scan(s, q);
        PrefixSkip(s, q, i);
      }
    }
  }

  /** A blocked position splits the scan: what comes before it is scanned
      as if the input ended there. */
  lemma ScanBeforeBlock(s: string, q: nat, i: nat)
    requires q <= |s| && Blocked(s, q) && i <= q
    ensures Scan(s, i) == Scan(s[..q], i) + Scan(s, q)
  {
    var t := s[..q];
    assert t[..q] == s[..q];
    forall y | i <= y < q
      ensures PrefixMatchAt(s, q, y)
    {
      MatchBeforeBlock(s, t, q, y);
    }
    ScanPrefixed(s, q, i);
  }


  function ShiftMatch(m: Match, d: nat): Match {
    Match(m.start + d, m.idStart + d, m.end + d)
  }

  function ShiftOpt(m: Option<Match>, d: nat): Option<Match> {
    match m
    case Some(m) => Some(ShiftMatch(m, d))
    case None => None
  }

  /** The matches of a suffix, renumbered as positions of the whole input. */
  function Shift(ms: seq<Match>, d: nat): seq<Match> {
    if ms == [] then [] else [ShiftMatch(ms[0], d)] + Shift(ms[1..], d)
  }

  lemma {:induction false} WordRunAfter(p: string, b: string, j: nat)
    requires j <= |b|
    ensures WordRunEnd(p + b, |p| + j) == |p| + WordRunEnd(b, j)
    decreases |b| - j
  {
    if j < |b| {
      assert (p + b)[|p| + j] == b[j];
      WordRunAfter(p, b, j + 1);
    }
  }

  lemma LiteralAfter(p: string, b: string, x: nat, lit: string)
    requires x <= |b|
    ensures LiteralAt(p + b, |p| + x, lit) <==> LiteralAt(b, x, lit)
  {
    if x + |lit| <= |b| {
      assert (p + b)[|p| + x..|p| + x + |lit|] == b[x..x + |lit|];
    }
  }

  lemma TokenAfterPrefix(p: string, b: string, x: nat, n: nat)
    requires x + n <= |b|
    ensures TokenAfter(p + b, |p| + x, n) == ShiftOpt(TokenAfter(b, x, n), |p|)
  {
    var j := x + n;
    if j < |b| {
      assert (p + b)[|p| + j] == b[j];
      WordRunAfter(p, b, j + 1);
    }
  }

  /** Matching only looks forward: a match in the tail `b` of `p + b` is a
      match of the whole input, shifted by `|p|`. */
  lemma MatchAfter(p: string, b: string, x: nat)
    requires x <= |b|
    ensures MatchAt(p + b, |p| + x) == ShiftOpt(MatchAt(b, x), |p|)
  {
    LiteralAfter(p, b, x, HttpPrefix);
    LiteralAfter(p, b, x, HttpsPrefix);
    if LiteralAt(b, x, HttpPrefix) {
      TokenAfterPrefix(p, b, x, |HttpPrefix|);
    } else if LiteralAt(b, x, HttpsPrefix) {
      TokenAfterPrefix(p, b, x, |HttpsPrefix|);
    }
  }

  /** A step of the scan that takes the match `m` at `i` and resumes at
      its end. */
  lemma ScanCons(s: string, i: nat, m: Match)
    requires i < |s| && MatchAt(s, i) == Some(m)
    ensures Scan(s, i) == [m] + Scan(s, m.end)
  {
  }

  /** A step of the scan past a position where no match starts. */
  lemma ScanSkip(s: string, i: nat)
    requires i < |s| && MatchAt(s, i).None?
    ensures Scan(s, i) == Scan(s, i + 1)
  {
  }

  lemma ShiftCons(m: Match, rest: seq<Match>, d: nat, whole: seq<Match>, shifted: seq<Match>)
    requires whole == [m] + rest
    requires shifted == [ShiftMatch(m, d)] + Shift(rest, d)
    ensures shifted == Shift(whole, d)
  {
    assert whole[1..] == rest;
  }

  /** Where `b` has the match `m` at `x`, both scans take one step. */
  lemma ShiftedHead(s: string, b: string, d: nat, x: nat, m: Match)
    requires |s| == d + |b| && x < |b| && MatchAt(b, x) == Some(m)
    requires MatchAt(s, d + x) == ShiftOpt(MatchAt(b, x), d)
    ensures d + m.end <= |s|
    ensures Scan(s, d + x) == [ShiftMatch(m, d)] + Scan(s, d + m.end)
    ensures Scan(b, x) == [m] + Scan(b, m.end)
  {
    assert MatchAt(s, d + x) == Some(ShiftMatch(m, d));
    ScanCons(s, d + x, ShiftMatch(m, d));
    ScanCons(b, x, m);
  }

  /** A step of `ScanShifted` where no match starts at `x` in `b`. */
  lemma ShiftedSkip(s: string, b: string, d: nat, x: nat)
    requires |s| == d + |b| && x < |b| && MatchAt(b, x).None?
    requires MatchAt(s, d + x) == ShiftOpt(MatchAt(b, x), d)
    requires Scan(s, d + x + 1) == Shift(Scan(b, x + 1), d)
    ensures Scan(s, d + x) == Shift(Scan(b, x), d)
  {
    assert MatchAt(s, d + x).None?;
    ScanSkip(s, d + x);
    ScanSkip(b, x);
  }

  /** Matching in `s` at `d + y` is matching in `b` at `y`, moved by `d`. */
  predicate ShiftedAt(s: string, b: string, d: nat, y: nat)
    requires |s| == d + |b| && y < |b|
  {
    MatchAt(s, d + y) == ShiftOpt(MatchAt(b, y), d)
  }

  /** The scan of `s` from `d + x` is the scan of `b` from `x` moved by
      `d`, when matching in `s` at `d + y` is matching in `b` at `y`,
      moved by `d`, for every `y` from `x` on. */
  lemma {:induction false} ScanShifted(s: string, b: string, d: nat, x: nat)
    requires |s| == d + |b| && x <= |b|
    requires forall y :: x <= y < |b| ==> ShiftedAt(s, b, d, y)
    ensures Scan(s, d + x) == Shift(Scan(b, x), d)
    decreases |b| - x
  {
    if x == |b| {
      assert Scan(s, d + x) == [] && Scan(b, x) == [];
    } else {
      assert ShiftedAt(s, b, d, x);
      if MatchAt(b, x).Some? {
        var m := MatchAt(b, x).value;
        assert x < m.end <= |b|;
        ScanShifted(s, b, d, m.end);
        assert Scan(s, d + m.end) == Shift(Scan(b, m.end), d);
        ShiftedHead(s, b, d, x, m);
        ShiftCons(m, Scan(b, m.end), d, Scan(b, x), Scan(s, d + x));
      } else {
        ScanShifted(s, b, d, x + 1);
        assert Scan(s, d + x + 1) == Shift(Scan(b, x + 1), d);
        ShiftedSkip(s, b, d, x);
      }
    }
  }

  /** Matching only looks forward, at every position of the tail. */
  lemma MatchAfterAll(p: string, b: string)
    ensures forall y :: 0 <= y < |b| ==> ShiftedAt(p + b, b, |p|, y)
  {
    forall y | 0 <= y < |b|
      ensures ShiftedAt(p + b, b, |p|, y)
    {
      MatchAfter(p, b, y);
    }
  }

  lemma ScanAfter(p: string, b: string, x: nat)
    requires x <= |b|
    ensures Scan(p + b, |p| + x) == Shift(Scan(b, x), |p|)
  {
    MatchAfterAll(p, b);
    ScanShifted(p + b, b, |p|, x);
  }

  /** No literal prefix starts on a separator. */
  lemma NoLiteralAtSeparator(s: string, q: nat, lit: string)
    requires q < |s| && IsSeparator(s[q])
    requires lit == HttpPrefix || lit == HttpsPrefix
    ensures !LiteralAt(s, q, lit)
  {
    assert lit[0] in lit;
    if q + |lit| <= |s| {
      assert s[q..q + |lit|][0] == s[q];
    }
  }

  lemma ConsAssoc<T>(a: T, xs: seq<T>, ys: seq<T>)
    ensures [a] + (xs + ys) == ([a] + xs) + ys
  {
  }

  lemma WithinAppend(s: string, xs: seq<Match>, ys: seq<Match>)
    requires Within(s, xs) && Within(s, ys)
    ensures Within(s, xs + ys)
  {
    forall k | 0 <= k < |xs + ys|
      ensures (xs + ys)[k].idStart <= (xs + ys)[k].end <= |s|
    {
      if k < |xs| {
        assert (xs + ys)[k] == xs[k];
      } else {
        assert (xs + ys)[k] == ys[k - |xs|];
      }
    }
  }

  lemma {:induction false} ItemsAppend(s: string, xs: seq<Match>, ys: seq<Match>)
    requires Within(s, xs) && Within(s, ys)
    ensures Within(s, xs + ys)
    ensures ItemsOf(s, xs + ys) == ItemsOf(s, xs) + ItemsOf(s, ys)
  {
    WithinAppend(s, xs, ys);
    if xs == [] {
      assert xs + ys == ys;
    } else {
      var ms, tail := xs + ys, xs[1..];
      assert ms[0] == xs[0] && ms[1..] == tail + ys;
      WithinAppend(s, tail, ys);
      ItemsAppend(s, tail, ys);
      var a := Item(s[xs[0].idStart..xs[0].end]);
      assert ItemsOf(s, ms) == [a] + ItemsOf(s, tail + ys);
      assert ItemsOf(s, xs) == [a] + ItemsOf(s, tail);
      ConsAssoc(a, ItemsOf(s, tail), ItemsOf(s, ys));
    }
  }

  lemma {:induction false} ItemsOfPrefix(a: string, t: string, xs: seq<Match>)
    requires Within(a, xs)
    ensures Within(a + t, xs) && ItemsOf(a + t, xs) == ItemsOf(a, xs)
  {
    if xs != [] {
      assert (a + t)[xs[0].idStart..xs[0].end] == a[xs[0].idStart..xs[0].end];
      ItemsOfPrefix(a, t, xs[1..]);
    }
  }

  lemma {:induction false} ItemsOfSuffix(p: string, b: string, ys: seq<Match>)
    requires Within(b, ys)
    ensures Within(p + b, Shift(ys, |p|)) && ItemsOf(p + b, Shift(ys, |p|)) == ItemsOf(b, ys)
  {
    if ys != [] {
      var m := ys[0];
      assert (p + b)[|p| + m.idStart..|p| + m.end] == b[m.idStart..m.end];
      ItemsOfSuffix(p, b, ys[1..]);
    }
  }

  /** The scan passes over a separator without a match. */
  lemma SeparatorSkip(s: string, q: nat)
    requires q < |s| && IsSeparator(s[q])
    ensures Scan(s, q) == Scan(s, q + 1)
  {
    NoLiteralAtSeparator(s, q, HttpPrefix);
    NoLiteralAtSeparator(s, q, HttpsPrefix);
    ScanSkip(s, q);
  }

  /** The matches of `a`, a separator and `b`: those of `a`, then those of
      `b` moved past `a` and the separator. */
  lemma ScanSplit(a: string, c: char, b: string)
    requires IsSeparator(c)
    ensures Scan(a + [c] + b, 0) == Scan(a, 0) + Shift(Scan(b, 0), |a| + 1)
  {
    var s := a + [c] + b;
    var q := |a|;
    assert s[..q] == a;
    ScanBeforeBlock(s, q, 0);
    SeparatorSkip(s, q);
    ScanAfter(a + [c], b, 0);
  }

  /** A separator splits extraction: the items of `a`, a separator and `b`
      are the items of `a` followed by the items of `b`.  In particular the
      lines of a file are extracted independently and in order. */
  lemma SeparatorSplit(a: string, c: char, b: string)
    requires IsSeparator(c)
    ensures Extract(a + [c] + b) == Extract(a) + Extract(b)
  {
    ScanSplit(a, c, b);
    ItemsSplit(a, c, b, Scan(a, 0), Scan(b, 0));
  }

  /** The items of matches of `a` and of matches of `b` moved past `a` and
      one more character, read in `a + [c] + b`. */
  lemma ItemsSplit(a: string, c: char, b: string, xs: seq<Match>, ys: seq<Match>)
    requires Within(a, xs) && Within(b, ys)
    ensures Within(a + [c] + b, xs + Shift(ys, |a| + 1))
    ensures ItemsOf(a + [c] + b, xs + Shift(ys, |a| + 1)) == ItemsOf(a, xs) + ItemsOf(b, ys)
  {
    var s := a + [c] + b;
    assert s == a + ([c] + b);
    ItemsOfPrefix(a, [c] + b, xs);
    ItemsOfSuffix(a + [c], b, ys);
    ItemsAppend(s, xs, Shift(ys, |a| + 1));
  }

  /** A single page URL on its own yields exactly the item of its id. */
  lemma ExtractSingle(prefix: string, id: string)
    requires prefix == HttpPrefix || prefix == HttpsPrefix
    requires IsValidId(id)
    ensures Extract(prefix + id) == [Item(id)]
  {
    var s := prefix + id;
    var n := |prefix|;
    assert s[..n] == prefix;
    assert forall k :: n <= k < |s| ==> s[k] == id[k - n];
    assert LiteralAt(s, 0, prefix);
    PrefixesExclusive(s, 0);
    var e := WordRunEnd(s, n + 1);
    assert e == |s|;
    assert MatchAt(s, 0) == Some(Match(0, n, |s|));
    assert Scan(s, 0) == [Match(0, n, |s|)];
    assert s[n..|s|] == id;
  }

  /** The lines of a text: the parts joined by one separator character. */
  function JoinWith(parts: seq<string>, c: char): string {
    if |parts| == 0 then []
    else if |parts| == 1 then parts[0]
    else parts[0] + [c] + JoinWith(parts[1..], c)
  }

  /** The items of each part, one part after the other. */
  function ExtractEach(parts: seq<string>): seq<Item> {
    if parts == [] then [] else Extract(parts[0]) + ExtractEach(parts[1..])
  }

  lemma {:induction false} ExtractJoin(parts: seq<string>, c: char)
    requires IsSeparator(c)
    ensures Extract(JoinWith(parts, c)) == ExtractEach(parts)
  {
    if |parts| == 0 {
      assert Scan([], 0) == [];
    } else if |parts| == 1 {
      assert ExtractEach(parts[1..]) == [];
    } else {
      SeparatorSplit(parts[0], c, JoinWith(parts[1..], c));
      ExtractJoin(parts[1..], c);
    }
  }

  /** No deduplication: a text holding the same page URL `k` times, one per
      line, yields `k` items, all with that id. */
  lemma NoDeduplication(prefix: string, id: string, c: char, k: nat)
    requires prefix == HttpPrefix || prefix == HttpsPrefix
    requires IsValidId(id) && IsSeparator(c)
    ensures Extract(JoinWith(seq(k, _ => prefix + id), c)) == seq(k, _ => Item(id))
  {
    ExtractJoin(seq(k, _ => prefix + id), c);
    ExtractEachRepeated(prefix, id, k);
  }

  lemma {:induction false} ExtractEachRepeated(prefix: string, id: string, k: nat)
    requires prefix == HttpPrefix || prefix == HttpsPrefix
    requires IsValidId(id)
    ensures ExtractEach(seq(k, _ => prefix + id)) == seq(k, _ => Item(id))
  {
    if k > 0 {
      var parts := seq(k, _ => prefix + id);
      assert parts[1..] == seq(k - 1, _ => prefix + id);
      ExtractSingle(prefix, id);
      ExtractEachRepeated(prefix, id, k - 1);
      assert seq(k, _ => Item(id)) == [Item(id)] + seq(k - 1, _ => Item(id));
    }
  }
}

=== FILE: text.dfy ===
/**
 Character classes and string helpers shared by the extractor and the run
 driver: the regular-expression class `\w`, JavaScript's `String.prototype.trim`
 and the decimal rendering a template literal gives a number.
 */
module Text {

  /** The class `\w` of a JavaScript regular expression without the `u` and
      `i` flags: ASCII letters, ASCII digits and the underscore.  The source
      writes `[\w\d]`, which is the same set because `\d` is inside `\w`. */
  predicate IsWordChar(c: char) {
    ('A' <= c <= 'Z') || ('a' <= c <= 'z') || ('0' <= c <= '9') || c == '_'
  }

  predicate IsDigit(c: char) {
    '0' <= c <= '9'
  }

  /** The characters `String.prototype.trim` removes: ECMAScript WhiteSpace
      (tab, vertical tab, form feed, ZWNBSP and every Unicode `Zs` space) and
      LineTerminator (LF, CR, LINE SEPARATOR, PARAGRAPH SEPARATOR). */
  predicate IsJsSpace(c: char) {
    || c == '\t' || c == '\n' || c == '\U{000B}' || c == '\U{000C}' || c == '\r'
    || c == ' ' || c == '\U{00A0}' || c == '\U{1680}'
    || ('\U{2000}' <= c <= '\U{200A}')
    || c == '\U{2028}' || c == '\U{2029}' || c == '\U{202F}' || c == '\U{205F}'
    || c == '\U{3000}' || c == '\U{FEFF}'
  }

  /** Drops the leading run of JavaScript white space. */
  function TrimStart(s: string): (r: string)
    ensures |r| <= |s| && r == s[|s| - |r|..]
    ensures forall k :: 0 <= k < |s| - |r| ==> IsJsSpace(s[k])
    ensures r == [] || !IsJsSpace(r[0])
  {
    if s != [] && IsJsSpace(s[0]) then TrimStart(s[1..]) else s
  }

  /** Drops the trailing run of JavaScript white space. */
  function TrimEnd(s: string): (r: string)
    ensures |r| <= |s| && r == s[..|r|]
    ensures forall k :: |r| <= k < |s| ==> IsJsSpace(s[k])
    ensures r == [] || !IsJsSpace(r[|r| - 1])
  {
    if s != [] && IsJsSpace(s[|s| - 1]) then TrimEnd(s[..|s| - 1]) else s
  }

  /** `String.prototype.trim`: the infix of `s` left after removing the
      white space at both ends; what was removed is all white space and what
      is left starts and ends with a non-space character. */
  function Trim(s: string): (r: string)
    ensures |s| - |TrimStart(s)| + |r| <= |s|
    ensures r == s[|s| - |TrimStart(s)|..|s| - |TrimStart(s)| + |r|]
    ensures forall k :: 0 <= k < |s| - |TrimStart(s)| ==> IsJsSpace(s[k])
    ensures forall k :: |s| - |TrimStart(s)| + |r| <= k < |s| ==> IsJsSpace(s[k])
    ensures r == [] || (!IsJsSpace(r[0]) && !IsJsSpace(r[|r| - 1]))
  {
    TrimEnd(TrimStart(s))
  }

  /** Trimming leaves nothing exactly when every character is white space:
      the condition behind the "file is empty" abort. */
  lemma TrimEmptyIff(s: string)
    ensures Trim(s) == [] <==> forall k :: 0 <= k < |s| ==> IsJsSpace(s[k])
  {
    if Trim(s) != [] {
      var a := |s| - |TrimStart(s)|;
      assert s[a] == Trim(s)[0];
    }
  }

  function DigitChar(d: nat): (c: char)
    requires d < 10
    ensures IsDigit(c) && DigitValue(c) == d
  {
    ['0', '1', '2', '3', '4', '5', '6', '7', '8', '9'][d]
  }

  function DigitValue(c: char): nat
    requires IsDigit(c)
  {
    (c as int - '0' as int) as nat
  }

  /** The value of a string of decimal digits, most significant first. */
  function DecimalValue(t: string): nat
    requires forall k :: 0 <= k < |t| ==> IsDigit(t[k])
  {
    if t == [] then 0 else DecimalValue(t[..|t| - 1]) * 10 + DigitValue(t[|t| - 1])
  }

  /** How a template literal renders a non-negative integer: its decimal
      digits, without leading zeros, reading back to the same number. */
  function Decimal(n: nat): (r: string)
    ensures r != []
    ensures forall k :: 0 <= k < |r| ==> IsDigit(r[k])
    ensures |r| > 1 ==> r[0] != '0'
    ensures DecimalValue(r) == n
  {
    if n < 10 then [DigitChar(n)]
    else
      var r := Decimal(n / 10) + [DigitChar(n % 10)];
      assert r[..|r| - 1] == Decimal(n / 10);
      r
  }
}

=== FILE: wrappers.dfy ===
/** The optional-value datatype the model uses where the source has
    `undefined`, a missing file or an unrecognised answer. */
module Wrappers {

  datatype Option<+T> = None | Some(value: T)
}
